=== FILE: README.md ===
# Account workflow of the competition-registration backend, in Dafny

This project models the account workflow of the user service of a
competition-registration backend: registration with e-mail OTP verification,
login, the password-reset flow (issue a reset OTP, consume it, set the new
password), profile updates, competition enrollment and the participant
count. It also models the pure helpers of the mail package: the six-digit
OTP generator, the random lower-case string generator, and the RFC 5322
message (header fields, an empty line, then the body, as section 2.1 of
RFC 5322 lays it out) that is handed to the SMTP client.

The state is one immutable `Store` with three tables (users, teams, OTP
rows), each a map from primary key to row. Every operation that can write
is a pure function from a store to a `Transition(result, store)`. Each such
operation opens a transaction, defers its rollback, and persists only when
it reaches `Commit`; Login opens one too but never writes.
`GetTotalParticipant` only reads a listing and is a method over it. The model writes this as one rule: `Rollback` returns the input
store with the error, and `Commit` returns the new store (or rolls back when
the commit itself fails). Every operation's contract states "an error leaves
the store unchanged". The contracts also give the order of the checks, what
a success changes and what it leaves alone.

The outside world reaches an operation through an `Env` record:
- the clock in whole minutes, and the raw `EXPIRED_OTP` string (parsed by a
  model of Go's `strconv.Atoi`);
- the results of `uuid.NewUUID`/`uuid.New` and the random draw of `GenerateCode`;
- bcrypt as a hash function that may fail plus an uninterpreted `matches` relation;
- JWT issuance as a function `(userID, isAdmin) -> token or failure`;
- the SMTP client as a transport that accepts or rejects a message;
- whether the transaction commit succeeds.

Repository lookups that can match several rows (user by email, OTP by user,
OTP by user and code, team by user) return *some* matching row, and the
model makes no claim about which one. These lookups, and the operations that
use them, are ghost functions. The user and OTP lookups are queries by
example: a field left empty adds no condition. With an empty email, the user
lookup therefore finds whichever user it returns first, when there is one.
With an empty code, the lookup by user and code is the lookup by user alone.

Modules:
- `Common`: `Option` and `Uuid`.
- `Strconv`: `Itoa`/`Atoi` as Go defines them on 64-bit platforms, with both
  round trips.
- `Mail`: `GenerateCode`, `GenerateRandomString`, `ComposeMessage`/`SendEmail`,
  and a reader `ParseMessage` used to state the message layout.
- `Entity`: the rows, the store, the lookups and the store invariant `Wf`.
- `UserService`: the operations.
- `UserServiceFacts`: lemmas relating calls to each other and to `Wf`.
- `Lifecycle`: requests as a state machine. Any run from the empty store
  keeps `Wf`, never deletes a user, never changes an e-mail, and never
  deactivates an active account.

Points of the code's behaviour that the model keeps as written:
- Register issues the access token right after it writes the user row, and
  before the team row, the OTP row and the mail (internal/service/user.go:104-107).
  So a token failure sends no mail.
- VerifyUser compares the code before it looks at the expiry
  (internal/service/user.go:232-243). A wrong code on an expired OTP
  therefore fails with "invalid otp code", not "otp expired".
- The OTP store does not keep one row per user. VerifyUser takes *some* row of
  the user, which can be a reset OTP rather than the registration OTP. The
  lemmas that promise a successful verification require the user to have a
  single row, or no older row with the same code.
- Under exact string comparison, VerifyOtpChangePassword can return "invalid
  token" only for the empty code (internal/service/user.go:425-434). A
  non-empty code filters the lookup, so the row found always carries it.
- The empty email finds some user whenever the store holds one
  (internal/service/user.go:69-75, 157-162, 386-391). On a non-empty store,
  Register refuses it as "email already registered", and Login and
  ChangePassword act on the user the lookup returns.

## Model

| member | source | states |
|---|---|---|
| Mail.GenerateCode | pkg/mail/mail.go:38-42 | the code is six decimal digits, not starting with '0', and parses back to draw + 100000, a value in [100000, 999999] |
| Mail.OtpCodeIsGenerated | pkg/mail/mail.go:38-42 | every six-digit string without a leading zero is produced by some draw, so the code space is exactly the six-digit numbers |
| Mail.GenerateCodeInjective | pkg/mail/mail.go:41 | different draws give different codes |
| Mail.GenerateCodeExample | pkg/mail/mail.go:41 | the draw 382913 gives the code "482913" |
| Mail.GenerateRandomString | pkg/mail/mail.go:44-55 | the result has exactly the requested length, its i-th character is the charset letter at the i-th draw, and every character is in 'a'..'z' |
| Mail.CharsetIsLowercase | pkg/mail/mail.go:45 | every index below len(charset) = 26 selects a letter in 'a'..'z' |
| Mail.ComposeMessage | pkg/mail/mail.go:19-26 | the body ends the message verbatim, right after a line end and an empty line |
| Mail.BodyAfterBlankLine | pkg/mail/mail.go:24-25 | a header block ending in CRLF, followed by the empty CRLF line and the body, ends in "\r\n\r\n" and then exactly the body |
| Mail.SendEmailDelivers | pkg/mail/mail.go:12-29 | when the transport accepts and no header value holds a CR, it accepted a message that reads back as the five header fields and the body |
| Mail.ComposeMessageLayout | pkg/mail/mail.go:19-26 | the message is the From (with the SMTP user name), To, Subject, MIME-Version and Content-Type fields, each ending in CRLF, then an empty CRLF line, then the body |
| Mail.RenderParseRoundTrip | pkg/mail/mail.go:19-26 | any list of readable header fields, rendered with CRLF line ends, an empty line and a body, is read back as exactly those fields and that body |
| Mail.ComposeParseRoundTrip | pkg/mail/mail.go:19-26 | when the user name, recipient and subject hold no CR, the composed message reads back as the five fields in order and the body verbatim |
| Strconv.Itoa | pkg/mail/mail.go:41 | the rendering is non-empty; a non-negative number renders as digits only, a negative one as '-' followed by digits |
| Strconv.AtoiItoa | pkg/mail/mail.go:41 | parsing the decimal rendering of any 64-bit integer gives that integer back |
| Strconv.DigitsRoundTrip | pkg/mail/mail.go:41 | the digits strconv.Itoa writes for a natural number denote that number |
| Strconv.ValueRoundTrip | pkg/mail/mail.go:41 | a digit string without a leading zero is the rendering of the number it denotes |
| Strconv.DigitsLength | pkg/mail/mail.go:41 | a number in [10^k, 10^(k+1)) is rendered with k+1 digits |
| Strconv.DigitsLeadNonZero | pkg/mail/mail.go:41 | the rendering of a positive number does not start with '0' |
| Strconv.DigitsValueBounds | pkg/mail/mail.go:41 | a k-digit string denotes a number below 10^k, and at least 10^(k-1) when it does not start with '0' |
| Strconv.Atoi | internal/service/user.go:236-239 | an accepted EXPIRED_OTP value is an optional sign followed by one or more decimal digits (a bare sign is refused), its value fits in 64 bits, and its sign agrees with the leading '-' |
| Strconv.AtoiAcceptsSignAndZeros | internal/service/user.go:236-239 | an explicit '+', a leading zero and a '-' in front of the digits are all accepted with the value they spell |
| Strconv.AtoiRejectsOutOfRange | internal/service/user.go:236-239 | the rendering of a number outside the 64-bit range is refused |
| Strconv.DigitsValueLeadingZero | internal/service/user.go:236-239 | a leading '0' does not change the value of a digit string |
| Entity.GetUserByEmail | internal/service/user.go:69-75 | a non-empty email finds a user exactly when some user holds it, and what it finds holds it; the empty email finds some user exactly when the store has one |
| Entity.GetUserByEmailUnique | internal/service/user.go:157-162 | when emails are unique the lookup by a non-empty email returns the one user holding it |
| Entity.GetOtp | internal/service/user.go:225-230 | the lookup finds a row exactly when the user owns an OTP row, and the row it finds is the user's |
| Entity.GetOtpWithCode | internal/service/user.go:425-431 | with an empty code it is the lookup by user alone; otherwise it finds a row exactly when the user owns a row with that code, and the row it finds has both |
| Entity.GetTeamByUserID | internal/service/user.go:521-524 | the lookup finds a team exactly when the user leads one, and the team it finds is the user's |
| UserService.Rollback | internal/service/user.go:64-65 | leaving before the commit yields exactly the given error and the store as it was |
| UserService.Commit | internal/service/user.go:139-146 | a successful commit publishes the new store and result; a failed one yields an error and the old store |
| UserService.CreateAccount | internal/service/user.go:91-147 | a taken user id fails with a duplicate key; "failed to create token" is returned exactly when the id is fresh and the token cannot be issued; errors leave the store unchanged; it succeeds exactly when the keys are fresh, the token is issued, the mail is accepted and the commit succeeds, and then it has added exactly the user, the placeholder team and the OTP row |
| UserService.Register | internal/service/user.go:63-147 | "email already registered" is returned exactly when the lookup finds the email (a taken one, or the empty email on a non-empty store); "password doesn't match" exactly when the email is free and the confirmation differs; "failed to create token" exactly when those checks, hashing and a fresh UUID pass and the token cannot be issued; any error (token creation, a duplicate key, mail, commit) leaves the store unchanged; a success adds exactly one inactive role-2 user, one "belum terverifikasi" team for competition 1 with an empty name, and one OTP row for that user, mails that code, and returns the token issued for (user, not admin); it succeeds exactly when the email is free, the passwords match, hashing and the UUID work, the keys are fresh, the token is issued, the mail is accepted and the commit succeeds |
| UserService.Login | internal/service/user.go:149-188 | the store never changes; an unknown email fails with "email or password is wrong"; the only errors are that one and "failed to create token"; a success returns the token issued for a user whose hash matches the password and who holds that email when it is non-empty, with admin = (RoleID == 1); it succeeds exactly when the user found by the email has a matching hash and a token is issued |
| UserService.VerifyUser | internal/service/user.go:221-270 | no OTP row fails with not found; "invalid otp code" is returned exactly when the row found carries another code, even if it is expired; "otp expired" exactly when the row carries the code, EXPIRED_OTP parses and the row was updated strictly before now - EXPIRED_OTP; failures change nothing; a success sets that user's status to "active" and deletes exactly the matched OTP row; it succeeds exactly when the user's row carries the code, is within the window, the user exists and the commit succeeds |
| UserService.ChangePassword | internal/service/user.go:382-419 | an email the lookup does not find fails with no change; the call succeeds exactly when the email is found, the OTP key is fresh, the reset mail is accepted, and either the token is not issued or the commit succeeds, so duplicate-key, mail and commit failures are errors; the store changes exactly when the email is known, the OTP key is fresh, the reset mail is accepted, the token is issued and the commit succeeds, and then the call succeeds with one new OTP row for the user; when the token cannot be issued the call returns an empty token with no error and the store unchanged |
| UserService.VerifyOtpChangePassword | internal/service/user.go:421-458 | users and teams never change; a user without OTP rows, or a non-empty code the user has no row for, fails with not found; "invalid token" is returned only for the empty code, and is returned when the row the user-only lookup finds has a non-empty code; "token expired" is returned exactly when the row found carries the code, EXPIRED_OTP parses and the row is older than the window; it succeeds exactly when the row found carries the code, is within the window and the commit succeeds, and then deletes exactly that row |
| UserService.ChangePasswordAfterVerify | internal/service/user.go:460-498 | checks in order: user not found, then "password mismatch" (returned exactly when the user exists and the confirmation differs), then "new password cannot be same as old password" (returned exactly when the user exists, the passwords agree, hashing works and the new password matches the old hash); errors leave the hash unchanged; a success changes only that user's password, to the new hash; it succeeds exactly when the user exists, the passwords match, hashing works, the new password does not match the old hash and the commit succeeds |
| UserService.UpdateProfile | internal/service/user.go:272-307 | an unknown user fails with no change; a success returns the submitted profile and replaces only the four profile fields of that user |
| UserService.CompetitionRegistration | internal/service/user.go:500-538 | an unknown user or a user without a team fails with no change, so the profile write is rolled back too; a success replaces the profile fields and only the competition of the user's team; it succeeds exactly when the user exists, leads a team and the commit succeeds |
| UserService.GetTotalParticipant | internal/service/user.go:570-599 | a failed listing is an error; otherwise the totals are the number of listed users whose team is in competition 2 and in competition 3 |
| UserServiceFacts.TotalsBounded | internal/service/user.go:585-591 | the two totals together never exceed the number of users listed |
| UserServiceFacts.AccountCreatedPreservesWf | internal/service/user.go:69-75 | the rows a registration writes for an email the lookup did not find keep the store invariant |
| UserServiceFacts.RegisterPreservesWf | internal/service/user.go:91-132 | registration keeps the store invariant: rows reference existing users, OTP codes are six digits, emails are unique, statuses are inactive or active |
| UserServiceFacts.VerifyUserPreservesWf | internal/service/user.go:253-262 | activation and OTP deletion keep the store invariant |
| UserServiceFacts.ChangePasswordPreservesWf | internal/service/user.go:393-398 | issuing a reset OTP keeps the store invariant |
| UserServiceFacts.VerifyOtpChangePasswordPreservesWf | internal/service/user.go:447-450 | consuming a reset OTP keeps the store invariant |
| UserServiceFacts.ChangePasswordAfterVerifyPreservesWf | internal/service/user.go:485-490 | changing a password keeps the store invariant |
| UserServiceFacts.UpdateProfilePreservesWf | internal/service/user.go:284-292 | a profile update keeps the store invariant |
| UserServiceFacts.CompetitionRegistrationPreservesWf | internal/service/user.go:511-530 | enrollment keeps the store invariant |
| UserServiceFacts.LoginRejectsExactly | internal/service/user.go:157-173 | with unique emails, Login with a non-empty email fails with "email or password is wrong" exactly when no user with that email has a matching password; with the empty email it fails so exactly when the store is empty or the user the lookup returns does not match |
| UserServiceFacts.LoginFailsAlike | internal/service/user.go:157-173 | an email the lookup does not find and a known non-empty email with a wrong password give identical results: the same error and the same store |
| UserServiceFacts.RegisteredUserFound | internal/service/user.go:157-162 | after a registration the email lookup finds the new user, for the empty email too |
| UserServiceFacts.LoginAfterRegister | internal/service/user.go:149-188 | a freshly registered, still inactive account logs in with its password when bcrypt's hash matches it, so Login does not check the account status |
| UserServiceFacts.VerifyUserExpiryBoundary | internal/service/user.go:236-244 | an OTP updated exactly EXPIRED_OTP minutes ago is accepted; one updated a minute earlier is rejected as expired |
| UserServiceFacts.VerifyUserOnce | internal/service/user.go:225-262 | when the user had a single OTP row, verifying again after a success fails at the OTP lookup |
| UserServiceFacts.RegisterThenVerify | internal/service/user.go:221-270 | after a registration, the mailed code presented within the window activates the new account, and a second attempt finds no OTP |
| UserServiceFacts.ExampleRegistration | internal/service/user.go:63-147 | registering a@x.com with code "482913" and verifying it within a ten-minute window leaves the account active |
| UserServiceFacts.RegisterMailCarriesCode | internal/service/user.go:122-137 | the registration mail the transport accepted reads back as the five header fields and a body that carries the stored OTP code |
| UserServiceFacts.ResetOtpConsumed | internal/service/user.go:421-458 | a reset OTP presented within the window is consumed; the user row is untouched and the OTP table is back to what it was before the reset |
| UserServiceFacts.ResetCodeLostWithoutToken | internal/service/user.go:403-411 | when the token cannot be issued, the reset mail has gone out but the call returns ("", no error) with the OTP row rolled back, so the mailed code is then refused |
| UserServiceFacts.EmptyResetCodeIsInvalidToken | internal/service/user.go:425-434 | in a well-formed store, the empty code is answered with "invalid token" when the user has an OTP row and with not found otherwise |
| UserServiceFacts.LoginAfterPasswordChange | internal/service/user.go:460-498 | after a successful password change, the new password logs in when bcrypt's hash matches it, provided the user's email is non-empty or the user is the only one |
| Lifecycle.StepPreservesWf | internal/service/user.go:63-538 | every operation keeps the store invariant |
| Lifecycle.StepKeepsAccounts | internal/service/user.go:253 | no operation deletes a user, changes an email or deactivates an active account |
| Lifecycle.RunPreservesWf | internal/service/user.go:63-538 | every sequence of calls keeps the store invariant |
| Lifecycle.RunKeepsAccounts | internal/service/user.go:253 | along any sequence of calls, users are never removed, emails never change and "active" is terminal |
| Lifecycle.ReachableStoresAreWf | internal/service/user.go:63-538 | every store reachable from the empty store satisfies the invariant |

## Left out

- `UploadPayment`, `GetMyTeamProfile` and `GetUserPaymentStatus`: a file-storage upload and read-only joins over the team, member and competition repositories. These repositories are not part of this model.
- `GetUserProfile` and `GetUser`: plain reads that pass a row through unchanged.
- SMTP delivery: `smtp.SendMail` and its address and authentication are one transport function in `Env`. The SMTP host, port and password environment variables are therefore not modelled.
- bcrypt and JWT internals: the hash function, the `matches` relation and token issuance are parameters.
- `uuid.New` panics on failure; the model only receives the UUIDs it returns.
- Database failures other than a duplicate primary key on insert and a failed commit. A lost connection or a failed update or delete is not modelled; updates and deletes always succeed.
- The internals of the OTP, user and team repositories. A lookup returns some matching row, and the model says nothing about which row when several match. The user lookup drops an empty email and the OTP lookup an empty code from its condition. Both keep the user id as a condition always. A nil user id (uuid.Nil), which would likewise drop that condition, is not modelled. This covers the user lookups by id in VerifyUser, UpdateProfile, ChangePasswordAfterVerify and CompetitionRegistration (internal/service/user.go:246, 276, 464, 504) and the OTP lookups by user. The model treats such an id as an ordinary key.
- Email and OTP code lookups compare strings exactly. The database compares them under the column's collation, and a case-insensitive collation that ignores trailing spaces, MariaDB's default, would treat "A@x.com" and "a@x.com" as the same email. Under such a collation Register would refuse the second address and Login would accept it, where the model creates a second account and refuses the login.
- GORM transaction mechanics and concurrent requests. Only "error ⇒ state unchanged, commit ⇒ new state" is modelled. Every user lookup runs outside the transaction; in the model it sees the same store as the writes.
- Time is an integer number of minutes. `time.Duration(EXPIRED_OTP) * time.Minute` is a 64-bit nanosecond count that wraps for settings above about 153 million minutes; the model subtracts whole minutes without wrap-around. Nanosecond precision and the database's timestamp rounding are also not modelled.
- `Mail.GenerateRandomString`: a negative length makes Go's `make` panic; the model takes a natural length.
- `UserService.GetTotalParticipant`: it takes the list `GetAllUser` returned, as each user's preloaded team competition (0 when the user has none). It does not derive that list from the store.
- HTTP middleware (`pkg/middleware/timeout.go`) and the `Stages` entity (`entity/stages.go`): a library wrapper and a struct without behaviour.

=== FILE: common.dfy ===
/** Vocabulary shared by every module of the model. */
module Common {

  /** A value that may be absent: a lookup that found nothing, a call that failed. */
  datatype Option<+T> = None | Some(value: T)

  /** A UUID as the database stores it; the model never looks inside one. */
  type Uuid = string
}

=== FILE: entity.dfy ===
/** The rows the account workflow reads and writes (users, teams, OTP codes),
    the store that holds them, and the repository lookups the service makes.
    Each table is a map from the row's primary key to the rest of the row. */
module Entity {
  import opened Common
  import Mail

  const StatusInactive: string := "inactive"
  const StatusActive: string := "active"
  const RoleAdmin: int := 1
  const RoleParticipant: int := 2
  const TeamUnverified: string := "belum terverifikasi"
  const DefaultCompetition: int := 1

  /** A user row: credentials, account state, role, profile and payment proof. */
  datatype User = User(
    email: string,
    password: string,        // bcrypt hash
    statusAccount: string,
    roleId: int,
    fullName: string,
    studentNumber: string,
    university: string,
    major: string,
    paymentTransc: string)

  /** A team row, bound to its leader and to a competition. */
  datatype Team = Team(teamName: string, teamStatus: string, userId: Uuid, competitionId: int)

  /** An OTP row; updatedAt is the row's last write time in whole minutes. */
  datatype Otp = Otp(userId: Uuid, code: string, updatedAt: int)

  datatype Store = Store(users: map<Uuid, User>, teams: map<Uuid, Team>, otps: map<Uuid, Otp>)

  const EmptyStore: Store := Store(map[], map[], map[])

  predicate EmailTaken(s: Store, email: string) {
    exists id :: id in s.users && s.users[id].email == email
  }

  /** Whether GetUser by email finds a row. The lookup is a query by example:
      an empty email adds no condition, so it finds some user whenever there
      is one. */
  predicate EmailFindsUser(s: Store, email: string) {
    if email == "" then |s.users| > 0 else EmailTaken(s, email)
  }

  predicate HasOtp(s: Store, userId: Uuid) {
    exists oid :: oid in s.otps && s.otps[oid].userId == userId
  }

  predicate HasOtpWithCode(s: Store, userId: Uuid, code: string) {
    exists oid :: oid in s.otps && s.otps[oid].userId == userId && s.otps[oid].code == code
  }

  predicate HasTeam(s: Store, userId: Uuid) {
    exists tid :: tid in s.teams && s.teams[tid].userId == userId
  }

  /** GetUser by email: some user with that email; which one, when several
      share it, is left open. The empty email drops the condition and finds
      any user. */
  ghost function GetUserByEmail(s: Store, email: string): (r: Option<Uuid>)
    ensures r.Some? <==> EmailFindsUser(s, email)
    ensures email != "" ==> (r.Some? <==> EmailTaken(s, email))
    ensures email == "" ==> (r.Some? <==> |s.users| > 0)
    ensures r.Some? ==> r.value in s.users
    ensures r.Some? && email != "" ==> s.users[r.value].email == email
  {
    if email == "" then
      if |s.users| > 0 then var id :| id in s.users; Some(id) else None
    else if EmailTaken(s, email) then
      var id :| id in s.users && s.users[id].email == email; Some(id)
    else None
  }

  /** GetOtp by user: some OTP row of that user. */
  ghost function GetOtp(s: Store, userId: Uuid): (r: Option<Uuid>)
    ensures r.Some? <==> HasOtp(s, userId)
    ensures r.Some? ==> r.value in s.otps && s.otps[r.value].userId == userId
  {
    if HasOtp(s, userId) then
      var oid :| oid in s.otps && s.otps[oid].userId == userId; Some(oid)
    else None
  }

  /** GetOtp by user and code. The lookup is a query by example: a field
      left empty adds no condition, so with the empty code it is the lookup by
      user alone and may return a row carrying any code. */
  ghost function GetOtpWithCode(s: Store, userId: Uuid, code: string): (r: Option<Uuid>)
    ensures code == "" ==> r == GetOtp(s, userId)
    ensures code != "" ==> (r.Some? <==> HasOtpWithCode(s, userId, code))
    ensures r.Some? ==> r.value in s.otps && s.otps[r.value].userId == userId
    ensures r.Some? && code != "" ==> s.otps[r.value].code == code
  {
    if code == "" then GetOtp(s, userId)
    else if HasOtpWithCode(s, userId, code) then
      var oid :| oid in s.otps && s.otps[oid].userId == userId && s.otps[oid].code == code; Some(oid)
    else None
  }

  /** GetTeamByUserID: some team row led by that user. */
  ghost function GetTeamByUserID(s: Store, userId: Uuid): (r: Option<Uuid>)
    ensures r.Some? <==> HasTeam(s, userId)
    ensures r.Some? ==> r.value in s.teams && s.teams[r.value].userId == userId
  {
    if HasTeam(s, userId) then
      var tid :| tid in s.teams && s.teams[tid].userId == userId; Some(tid)
    else None
  }

  predicate EmailsUnique(s: Store) {
    forall a, b :: a in s.users && b in s.users && s.users[a].email == s.users[b].email ==> a == b
  }

  /** The invariant every reachable store keeps: team and OTP rows belong to
      existing users, every OTP code has the shape GenerateCode gives, no two
      users share an email, and every account is inactive or active. */
  predicate Wf(s: Store) {
    && (forall tid :: tid in s.teams ==> s.teams[tid].userId in s.users)
    && (forall oid :: oid in s.otps ==> s.otps[oid].userId in s.users)
    && (forall oid :: oid in s.otps ==> Mail.IsOtpCode(s.otps[oid].code))
    && EmailsUnique(s)
    && (forall id :: id in s.users ==>
          s.users[id].statusAccount == StatusInactive || s.users[id].statusAccount == StatusActive)
  }

  /** With unique emails the lookup by a non-empty email is determined: it
      finds exactly the user holding that email. */
  lemma GetUserByEmailUnique(s: Store, email: string, id: Uuid)
    requires EmailsUnique(s)
    requires email != ""
    requires id in s.users && s.users[id].email == email
    ensures GetUserByEmail(s, email) == Some(id)
  {
  }
}

=== FILE: lifecycle.dfy ===
/** The account lifecycle as a state machine: any sequence of service calls,
    each with its own view of the outside world, starting from the empty
    store. */
module Lifecycle {
  import opened Common
  import opened Entity
  import opened UserService
  import opened UserServiceFacts

  datatype Request =
    | RegisterRequest(email: string, password: string, confirm: string)
    | LoginRequest(email: string, password: string)
    | VerifyUserRequest(userId: Uuid, code: string)
    | ChangePasswordRequest(email: string)
    | VerifyOtpChangePasswordRequest(userId: Uuid, code: string)
    | ChangePasswordAfterVerifyRequest(userId: Uuid, newPassword: string, confirm: string)
    | UpdateProfileRequest(userId: Uuid, profile: Profile)
    | CompetitionRegistrationRequest(userId: Uuid, competitionId: int, profile: Profile)

  /** The store after serving one request. */
  ghost function Step(s: Store, env: Env, req: Request): Store {
    match req
    case RegisterRequest(email, password, confirm) => Register(s, env, email, password, confirm).store
    case LoginRequest(email, password) => Login(s, env, email, password).store
    case VerifyUserRequest(userId, code) => VerifyUser(s, env, userId, code).store
    case ChangePasswordRequest(email) => ChangePassword(s, env, email).store
    case VerifyOtpChangePasswordRequest(userId, code) => VerifyOtpChangePassword(s, env, userId, code).store
    case ChangePasswordAfterVerifyRequest(userId, newPassword, confirm) =>
      ChangePasswordAfterVerify(s, env, userId, newPassword, confirm).store
    case UpdateProfileRequest(userId, profile) => UpdateProfile(s, env, userId, profile).store
    case CompetitionRegistrationRequest(userId, competitionId, profile) =>
      CompetitionRegistration(s, env, userId, competitionId, profile).store
  }

  /** The store after serving the calls in order. */
  ghost function Run(s: Store, calls: seq<(Env, Request)>): Store
    decreases |calls|
  {
    if |calls| == 0 then s else Run(Step(s, calls[0].0, calls[0].1), calls[1..])
  }

  /** What no call ever undoes: users are never deleted, an email never
      changes, and an active account stays active (active is terminal). */
  predicate AccountsKept(s: Store, s': Store) {
    && s.users.Keys <= s'.users.Keys
    && (forall id :: id in s.users ==> s'.users[id].email == s.users[id].email)
    && (forall id :: id in s.users && s.users[id].statusAccount == StatusActive
          ==> s'.users[id].statusAccount == StatusActive)
  }

  lemma StepPreservesWf(s: Store, env: Env, req: Request)
    requires Wf(s)
    ensures Wf(Step(s, env, req))
  {
    match req
    case RegisterRequest(email, password, confirm) =>
      RegisterPreservesWf(s, env, email, password, confirm);
    case LoginRequest(email, password) =>
    case VerifyUserRequest(userId, code) =>
      VerifyUserPreservesWf(s, env, userId, code);
    case ChangePasswordRequest(email) =>
      ChangePasswordPreservesWf(s, env, email);
    case VerifyOtpChangePasswordRequest(userId, code) =>
      VerifyOtpChangePasswordPreservesWf(s, env, userId, code);
    case ChangePasswordAfterVerifyRequest(userId, newPassword, confirm) =>
      ChangePasswordAfterVerifyPreservesWf(s, env, userId, newPassword, confirm);
    case UpdateProfileRequest(userId, profile) =>
      UpdateProfilePreservesWf(s, env, userId, profile);
    case CompetitionRegistrationRequest(userId, competitionId, profile) =>
      CompetitionRegistrationPreservesWf(s, env, userId, competitionId, profile);
  }

  lemma StepKeepsAccounts(s: Store, env: Env, req: Request)
    ensures AccountsKept(s, Step(s, env, req))
  {
  }

  /** Every store reachable from the empty one satisfies the invariant. */
  lemma {:induction false} RunPreservesWf(s: Store, calls: seq<(Env, Request)>)
    requires Wf(s)
    ensures Wf(Run(s, calls))
    decreases |calls|
  {
    if |calls| > 0 {
      StepPreservesWf(s, calls[0].0, calls[0].1);
      RunPreservesWf(Step(s, calls[0].0, calls[0].1), calls[1..]);
    }
  }

  lemma {:induction false} RunKeepsAccounts(s: Store, calls: seq<(Env, Request)>)
    ensures AccountsKept(s, Run(s, calls))
    decreases |calls|
  {
    if |calls| > 0 {
      var s1 := Step(s, calls[0].0, calls[0].1);
      StepKeepsAccounts(s, calls[0].0, calls[0].1);
      RunKeepsAccounts(s1, calls[1..]);
    }
  }

  lemma ReachableStoresAreWf(calls: seq<(Env, Request)>)
    ensures Wf(Run(EmptyStore, calls))
  {
    RunPreservesWf(EmptyStore, calls);
  }
}

=== FILE: mail.dfy ===
/** The pure parts of the mail helpers: the six-digit OTP generator, the
    random lower-case string generator, and the RFC 5322 message that
    SendEmail hands to the SMTP client. The SMTP exchange itself is a
    transport function supplied by the caller. */
module Mail {
  import opened Common
  import Strconv

  const CodeMin: int := 100000
  const CodeMax: int := 999999

  /** A value rand.Intn(CodeMax - CodeMin + 1) can return. */
  type CodeDraw = d: int | 0 <= d < CodeMax - CodeMin + 1

  const Charset: string := "abcdefghijklmnopqrstuvwxyz"

  /** A value rand.Intn(len(Charset)) can return. */
  type CharsetDraw = d: int | 0 <= d < 26

  /** The shape of every code GenerateCode can produce: six decimal digits,
      the first of them not '0'. */
  predicate IsOtpCode(code: string) {
    |code| == 6 && Strconv.AllDigits(code) && code[0] != '0'
  }

  /** GenerateCode, with the random draw as a parameter. */
  function GenerateCode(draw: CodeDraw): (code: string)
    ensures IsOtpCode(code)
    ensures Strconv.Atoi(code) == Some(draw + CodeMin)
    ensures CodeMin <= Strconv.Atoi(code).value <= CodeMax
  {
    var n := draw + CodeMin;
    assert Strconv.Pow10(5) == CodeMin && Strconv.Pow10(6) == CodeMax + 1 by {
      assert Strconv.Pow10(2) == 100;
      assert Strconv.Pow10(4) == 10000;
    }
    Strconv.DigitsLength(n, 5);
    Strconv.DigitsLeadNonZero(n);
    Strconv.AtoiItoa(n);
    Strconv.Itoa(n)
  }

  /** Every six-digit code without a leading zero is the output of exactly
      one draw: GenerateCode covers the whole code space and nothing else. */
  lemma OtpCodeIsGenerated(code: string)
    requires IsOtpCode(code)
    ensures exists d: CodeDraw :: GenerateCode(d) == code
  {
    assert Strconv.Pow10(5) == CodeMin && Strconv.Pow10(6) == CodeMax + 1 by {
      assert Strconv.Pow10(2) == 100;
      assert Strconv.Pow10(4) == 10000;
    }
    Strconv.DigitsValueBounds(code);
    Strconv.ValueRoundTrip(code);
    var d: CodeDraw := Strconv.DigitsValue(code) - CodeMin;
    assert GenerateCode(d) == code;
  }

  /** The draw 382913 yields the code "482913". */
  lemma GenerateCodeExample()
    ensures GenerateCode(382913) == "482913"
  {
    assert Strconv.Digits(4) == "4";
    assert Strconv.Digits(48) == "48";
    assert Strconv.Digits(482) == "482";
    assert Strconv.Digits(4829) == "4829";
    assert Strconv.Digits(48291) == "48291";
  }

  /** Distinct draws give distinct codes. */
  lemma GenerateCodeInjective(d1: CodeDraw, d2: CodeDraw)
    requires GenerateCode(d1) == GenerateCode(d2)
    ensures d1 == d2
  {
  }

  /** GenerateRandomString, with the i-th draw of the random source given
      as draw(i). */
  method GenerateRandomString(length: nat, draw: nat -> CharsetDraw) returns (s: string)
    ensures |s| == length
    ensures forall i :: 0 <= i < |s| ==> 'a' <= s[i] <= 'z'
    ensures forall i :: 0 <= i < |s| ==> s[i] == Charset[draw(i)]
  {
    s := [];
    var i := 0;
    while i < length
      invariant i <= length
      invariant |s| == i
      invariant forall j :: 0 <= j < i ==> s[j] == Charset[draw(j)]
      invariant forall j :: 0 <= j < i ==> 'a' <= s[j] <= 'z'
    {
      var k := draw(i);
      assert 'a' <= Charset[k] <= 'z' by {
        CharsetIsLowercase(k);
      }
      s := s + [Charset[k]];
      i := i + 1;
    }
  }

  lemma CharsetIsLowercase(k: CharsetDraw)
    ensures 'a' <= Charset[k] <= 'z'
  {
  }

  /** One header field of the message. */
  datatype Header = Header(name: string, value: string)

  /** The five header fields SendEmail writes, in order. */
  function MessageHeaders(username: string, to: string, subject: string): seq<Header> {
    [ Header("From", "No Reply <" + username + ">"),
      Header("To", to),
      Header("Subject", subject),
      Header("MIME-Version", "1.0"),
      Header("Content-Type", "text/html; charset=\"UTF-8\"") ]
  }

  function HeaderLine(h: Header): string {
    h.name + ": " + h.value + "\r\n"
  }

  /** The header fields, each on its own line, then the empty line and the body. */
  function RenderMessage(hs: seq<Header>, body: string): string {
    if |hs| == 0 then "\r\n" + body else HeaderLine(hs[0]) + RenderMessage(hs[1..], body)
  }

  /** The message text SendEmail builds before calling the SMTP client:
      From, To, Subject, MIME-Version and Content-Type lines, each ended by
      CRLF, then an empty line, then the body verbatim. */
  function ComposeMessage(username: string, to: string, subject: string, message: string): (r: string)
    ensures |r| >= |message| + 4
    ensures r[|r| - |message|..] == message
    ensures r[|r| - |message| - 4..|r| - |message|] == "\r\n\r\n"
  {
    var ct := Header("Content-Type", "text/html; charset=\"UTF-8\"");
    var head := HeaderLine(Header("From", "No Reply <" + username + ">")) + (
      HeaderLine(Header("To", to)) + (
      HeaderLine(Header("Subject", subject)) + (
      HeaderLine(Header("MIME-Version", "1.0")))));
    var r := head + (HeaderLine(ct) + ("\r\n" + message));
    BodyAfterBlankLine(head + (ct.name + ": " + ct.value), message);
    assert r == ((head + (ct.name + ": " + ct.value)) + "\r\n") + ("\r\n" + message);
    r
  }

  /** A line end followed by an empty line sits right before the body. */
  lemma BodyAfterBlankLine(x: string, m: string)
    ensures var r := (x + "\r\n") + ("\r\n" + m);
            && |r| >= |m| + 4
            && r[|r| - |m|..] == m
            && r[|r| - |m| - 4..|r| - |m|] == "\r\n\r\n"
  {
  }

  /** The composed message is the rendering of SendEmail's five header fields
      around the body. */
  lemma ComposeMessageLayout(username: string, to: string, subject: string, message: string)
    ensures ComposeMessage(username, to, subject, message)
            == RenderMessage(MessageHeaders(username, to, subject), message)
  {
    var hs := MessageHeaders(username, to, subject);
    var m5 := "\r\n" + message;
    assert hs[4..][1..] == hs[5..];
    assert RenderMessage(hs[5..], message) == m5;
    var m4 := HeaderLine(hs[4]) + m5;
    assert RenderMessage(hs[4..], message) == m4;
    assert hs[3..][1..] == hs[4..];
    var m3 := HeaderLine(hs[3]) + m4;
    assert RenderMessage(hs[3..], message) == m3;
    assert hs[2..][1..] == hs[3..];
    var m2 := HeaderLine(hs[2]) + m3;
    assert RenderMessage(hs[2..], message) == m2;
    assert hs[1..][1..] == hs[2..];
    var m1 := HeaderLine(hs[1]) + m2;
    assert RenderMessage(hs[1..], message) == m1;
    assert RenderMessage(hs, message) == HeaderLine(hs[0]) + m1;
  }

  /** SendEmail: true when the transport accepts the composed message sent
      from the SMTP user to the single recipient. */
  function SendEmail(transport: (string, string, string) -> bool, username: string,
                     to: string, subject: string, message: string): bool
  {
    transport(username, to, ComposeMessage(username, to, subject, message))
  }

  /** An accepted send delivered a message that reads back as SendEmail's
      five header fields and the body, when no header value holds a CR. */
  lemma SendEmailDelivers(transport: (string, string, string) -> bool, username: string,
                          to: string, subject: string, message: string)
    requires SendEmail(transport, username, to, subject, message)
    requires '\r' !in username && '\r' !in to && '\r' !in subject
    ensures exists msg :: transport(username, to, msg)
                          && ParseMessage(msg) == Some((MessageHeaders(username, to, subject), message))
  {
    ComposeParseRoundTrip(username, to, subject, message);
    assert transport(username, to, ComposeMessage(username, to, subject, message));
  }

  // A reader for the layout, used to state what ComposeMessage produces.

  /** The position of the first c in s. */
  function IndexOf(s: string, c: char): (r: Option<nat>)
    ensures r.Some? ==> r.value < |s| && s[r.value] == c && c !in s[..r.value]
    ensures r.None? ==> c !in s
  {
    if |s| == 0 then None
    else if s[0] == c then Some(0)
    else match IndexOf(s[1..], c)
      case None => None
      case Some(k) => Some(k + 1)
  }

  lemma IndexOfAfter(p: string, c: char, rest: string)
    requires c !in p
    ensures IndexOf(p + [c] + rest, c) == Some(|p|)
  {
    var s := p + [c] + rest;
    assert s[|p|] == c;
    assert s[..|p|] == p;
  }

  /** Splits "name: value" at the first colon. */
  function SplitField(line: string): Option<Header> {
    match IndexOf(line, ':')
    case None => None
    case Some(k) =>
      if k + 1 < |line| && line[k + 1] == ' ' then Some(Header(line[..k], line[k + 2..])) else None
  }

  /** Reads CRLF-terminated header fields up to the empty line; what follows
      the empty line is the body. */
  function ParseMessage(msg: string): Option<(seq<Header>, string)>
    decreases |msg|
  {
    if |msg| >= 2 && msg[0] == '\r' && msg[1] == '\n' then Some(([], msg[2..]))
    else match IndexOf(msg, '\r')
      case None => None
      case Some(k) =>
        if k + 1 < |msg| && msg[k + 1] == '\n' then
          match SplitField(msg[..k])
          case None => None
          case Some(h) =>
            match ParseMessage(msg[k + 2..])
            case None => None
            case Some(rest) => Some(([h] + rest.0, rest.1))
        else None
  }

  /** A header field that can be read back: no colon in its name, no CR in
      either part. */
  predicate ReadableHeader(h: Header) {
    ':' !in h.name && '\r' !in h.name && '\r' !in h.value
  }

  lemma SplitFieldOf(h: Header)
    requires ReadableHeader(h)
    ensures SplitField(h.name + ": " + h.value) == Some(h)
  {
    var line := h.name + ": " + h.value;
    assert line == h.name + [':'] + ([' '] + h.value);
    IndexOfAfter(h.name, ':', [' '] + h.value);
    assert line[..|h.name|] == h.name;
    assert line[|h.name| + 2..] == h.value;
  }

  /** Reading one header line peels it off and continues with the rest. */
  lemma ParseHeaderLine(h: Header, tail: string)
    requires ReadableHeader(h)
    ensures ParseMessage(HeaderLine(h) + tail)
            == match ParseMessage(tail)
               case None => None
               case Some(rest) => Some(([h] + rest.0, rest.1))
  {
    var line := h.name + ": " + h.value;
    var msg := HeaderLine(h) + tail;
    assert msg == line + ['\r'] + (['\n'] + tail);
    assert '\r' !in line;
    IndexOfAfter(line, '\r', ['\n'] + tail);
    assert msg[..|line|] == line;
    assert msg[|line| + 2..] == tail;
    if |h.name| > 0 {
      assert msg[0] == h.name[0];
    } else {
      assert msg[0] == ':';
    }
    SplitFieldOf(h);
  }

  lemma {:induction false} RenderParseRoundTrip(hs: seq<Header>, body: string)
    requires forall i :: 0 <= i < |hs| ==> ReadableHeader(hs[i])
    ensures ParseMessage(RenderMessage(hs, body)) == Some((hs, body))
  {
    var msg := RenderMessage(hs, body);
    if |hs| == 0 {
      assert msg[2..] == body;
    } else {
      var tail := RenderMessage(hs[1..], body);
      ParseHeaderLine(hs[0], tail);
      RenderParseRoundTrip(hs[1..], body);
      assert [hs[0]] + hs[1..] == hs;
    }
  }

  lemma MimeVersionReadable()
    ensures ReadableHeader(Header("MIME-Version", "1.0"))
  {
  }

  lemma ContentTypeReadable()
    ensures ReadableHeader(Header("Content-Type", "text/html; charset=\"UTF-8\""))
  {
  }

  lemma MessageHeadersReadable(username: string, to: string, subject: string)
    requires '\r' !in username && '\r' !in to && '\r' !in subject
    ensures forall i :: 0 <= i < 5 ==> ReadableHeader(MessageHeaders(username, to, subject)[i])
  {
    var hs := MessageHeaders(username, to, subject);
    MimeVersionReadable();
    ContentTypeReadable();
    assert ReadableHeader(hs[0]) by {
      assert '\r' !in "No Reply <" && '\r' !in ">";
    }
    assert ReadableHeader(hs[1]);
    assert ReadableHeader(hs[2]);
    assert ReadableHeader(hs[3]) && ReadableHeader(hs[4]);
  }

  /** The composed message reads back as the five header fields of
      SendEmail followed by the body, verbatim, provided the user name,
      recipient and subject carry no CR (a CR in them would inject lines). */
  lemma ComposeParseRoundTrip(username: string, to: string, subject: string, message: string)
    requires '\r' !in username && '\r' !in to && '\r' !in subject
    ensures ParseMessage(ComposeMessage(username, to, subject, message))
            == Some((MessageHeaders(username, to, subject), message))
  {
    ComposeMessageLayout(username, to, subject, message);
    MessageHeadersReadable(username, to, subject);
    RenderParseRoundTrip(MessageHeaders(username, to, subject), message);
  }
}

=== FILE: strconv.dfy ===
/** Decimal conversion as Go's strconv package performs it on 64-bit
    platforms: Itoa renders an int, Atoi parses one back. */
module Strconv {
  import opened Common

  const Int64Min: int := -0x8000_0000_0000_0000
  const Int64Max: int := 0x7fff_ffff_ffff_ffff

  predicate IsDigit(c: char) {
    '0' <= c <= '9'
  }

  predicate AllDigits(s: string) {
    forall i :: 0 <= i < |s| ==> IsDigit(s[i])
  }

  function DigitValue(c: char): (d: nat)
    requires IsDigit(c)
    ensures d < 10
  {
    c as int - '0' as int
  }

  function DigitChar(d: nat): (c: char)
    requires d < 10
    ensures IsDigit(c) && DigitValue(c) == d
  {
    ('0' as int + d) as char
  }

  function Pow10(k: nat): (p: nat)
    ensures p >= 1
  {
    if k == 0 then 1 else 10 * Pow10(k - 1)
  }

  /** The decimal digits of n, most significant first, without leading zeros. */
  function Digits(n: nat): (s: string)
    ensures |s| >= 1 && AllDigits(s)
  {
    if n < 10 then [DigitChar(n)] else Digits(n / 10) + [DigitChar(n % 10)]
  }

  /** The number a string of decimal digits denotes, most significant digit first. */
  function DigitsValue(s: string): nat
    requires AllDigits(s)
  {
    if |s| == 0 then 0 else DigitsValue(s[..|s| - 1]) * 10 + DigitValue(s[|s| - 1])
  }

  /** strconv.Itoa: an optional minus sign, then the digits of the magnitude. */
  function Itoa(n: int): (s: string)
    ensures |s| >= 1
    ensures n >= 0 ==> AllDigits(s)
    ensures n < 0 ==> s[0] == '-' && AllDigits(s[1..])
  {
    if n < 0 then "-" + Digits(-n) else Digits(n)
  }

  /** strconv.Atoi: an optional '+' or '-', then one or more decimal digits
      (leading zeros allowed, no underscores, no spaces); the value must fit
      in a 64-bit int. None stands for the syntax or range error. */
  function Atoi(s: string): (r: Option<int>)
    ensures r.Some? ==> Int64Min <= r.value <= Int64Max
    ensures r.Some? ==> |s| >= 1 && (IsDigit(s[0]) || s[0] == '+' || s[0] == '-')
    ensures r.Some? ==> AllDigits(if s[0] == '+' || s[0] == '-' then s[1..] else s)
    ensures r.Some? ==> |s| >= 2 || IsDigit(s[0])
    ensures r.Some? && s[0] == '-' ==> r.value <= 0
    ensures r.Some? && s[0] != '-' ==> r.value >= 0
  {
    var signed := |s| > 0 && (s[0] == '+' || s[0] == '-');
    var magnitude := if signed then s[1..] else s;
    if |magnitude| == 0 || !AllDigits(magnitude) then None
    else
      var v: int := if signed && s[0] == '-' then -(DigitsValue(magnitude) as int) else DigitsValue(magnitude);
      if Int64Min <= v <= Int64Max then Some(v) else None
  }

  /** Reading back the digits of n gives n. */
  lemma {:induction false} DigitsRoundTrip(n: nat)
    ensures DigitsValue(Digits(n)) == n
  {
    if n >= 10 {
      DigitsRoundTrip(n / 10);
      var p := Digits(n / 10);
      var s := p + [DigitChar(n % 10)];
      assert s[..|s| - 1] == p;
    }
  }

  /** The digits of a positive number never start with '0'. */
  lemma {:induction false} DigitsLeadNonZero(n: nat)
    requires n >= 1
    ensures Digits(n)[0] != '0'
  {
    if n >= 10 {
      DigitsLeadNonZero(n / 10);
      assert Digits(n)[0] == Digits(n / 10)[0];
    }
  }

  /** A number with k+1 digits is rendered with exactly k+1 characters. */
  lemma {:induction false} DigitsLength(n: nat, k: nat)
    requires Pow10(k) <= n < Pow10(k + 1)
    ensures |Digits(n)| == k + 1
  {
    if k > 0 {
      DigitsLength(n / 10, k - 1);
    }
  }

  /** A digit string of length k denotes a number below 10^k, and at least
      10^(k-1) when its first digit is not '0'. */
  lemma {:induction false} DigitsValueBounds(s: string)
    requires AllDigits(s) && |s| >= 1
    ensures DigitsValue(s) < Pow10(|s|)
    ensures s[0] != '0' ==> Pow10(|s| - 1) <= DigitsValue(s)
  {
    if |s| > 1 {
      var p := s[..|s| - 1];
      DigitsValueBounds(p);
      assert p[0] == s[0];
    }
  }

  /** Conversely, the canonical digit string of a value is the string it came
      from, provided that string has no leading zero. */
  lemma {:induction false} ValueRoundTrip(s: string)
    requires AllDigits(s) && |s| >= 1 && s[0] != '0'
    ensures Digits(DigitsValue(s)) == s
  {
    var v := DigitsValue(s);
    if |s| == 1 {
      assert s[..|s| - 1] == [];
      assert DigitsValue(s[..|s| - 1]) == 0;
      assert DigitChar(v) == s[0];
    } else {
      var p := s[..|s| - 1];
      assert p[0] == s[0];
      ValueRoundTrip(p);
      DigitsValueBounds(p);
      assert v / 10 == DigitsValue(p);
      assert v % 10 == DigitValue(s[|s| - 1]);
      assert DigitChar(v % 10) == s[|s| - 1];
      assert s == p + [s[|s| - 1]];
    }
  }

  /** Atoi undoes Itoa on every 64-bit integer. */
  lemma AtoiItoa(n: int)
    requires Int64Min <= n <= Int64Max
    ensures Atoi(Itoa(n)) == Some(n)
  {
    var s := Itoa(n);
    if n < 0 {
      DigitsRoundTrip(-n);
      assert s[1..] == Digits(-n);
    } else {
      DigitsRoundTrip(n);
    }
  }

  /** A leading '0' does not change the value a digit string denotes. */
  lemma {:induction false} DigitsValueLeadingZero(d: string)
    requires AllDigits(d)
    ensures AllDigits("0" + d) && DigitsValue("0" + d) == DigitsValue(d)
  {
    var z := "0" + d;
    if |d| == 0 {
      assert z[..|z| - 1] == "";
    } else {
      var p := d[..|d| - 1];
      assert z[..|z| - 1] == "0" + p;
      assert z[|z| - 1] == d[|d| - 1];
      DigitsValueLeadingZero(p);
    }
  }

  /** Atoi accepts the other spellings Go's strconv.Atoi takes: an explicit
      '+', a zero-padded magnitude, and a minus sign in front of the digits. */
  lemma AtoiAcceptsSignAndZeros(n: int)
    requires 0 <= n <= Int64Max
    ensures Atoi("+" + Itoa(n)) == Some(n)
    ensures Atoi("0" + Itoa(n)) == Some(n)
    ensures Atoi("-" + Itoa(n)) == Some(-n)
  {
    var d := Itoa(n);
    DigitsRoundTrip(n);
    assert ("+" + d)[1..] == d;
    assert ("-" + d)[1..] == d;
    DigitsValueLeadingZero(d);
  }

  /** Numbers outside the 64-bit range are refused, as strconv.Atoi refuses
      them with a range error. */
  lemma AtoiRejectsOutOfRange(n: int)
    requires n < Int64Min || Int64Max < n
    ensures Atoi(Itoa(n)) == None
  {
    var s := Itoa(n);
    if n < 0 {
      DigitsRoundTrip(-n);
      assert s[1..] == Digits(-n);
    } else {
      DigitsRoundTrip(n);
    }
  }
}

=== FILE: user_service.dfy ===
/** The account workflow of the user service. Every operation is a
    transition of the store: it either commits a new store together with its
    result, or fails and leaves the store exactly as it was, which is what the
    service's open-transaction / deferred-rollback / commit pattern achieves.
    The clock, the EXPIRED_OTP setting, UUID and random draws, bcrypt, JWT
    issuance, SMTP delivery and the commit's own success come in through Env. */
module UserService {
  import opened Common
  import opened Entity
  import Mail
  import Strconv

  datatype Error =
    | EmailAlreadyRegistered   // "email already registered"
    | PasswordDoesntMatch      // "password doesn't match"
    | EmailOrPasswordWrong     // "email or password is wrong"
    | FailedToCreateToken      // "failed to create token"
    | InvalidOtpCode           // "invalid otp code"
    | OtpExpired               // "otp expired"
    | InvalidToken             // "invalid token"
    | TokenExpired             // "token expired"
    | PasswordMismatch         // "password mismatch"
    | SamePassword             // "new password cannot be same as old password"
    | RecordNotFound           // a repository lookup found no row
    | DuplicateKey             // an insert hit an existing primary key
    | HashFailed               // bcrypt could not hash the password
    | UuidFailed               // uuid.NewUUID failed
    | MailFailed               // the SMTP client reported an error
    | ExpiryNotANumber         // EXPIRED_OTP is not a decimal integer
    | CommitFailed             // the transaction did not commit
    | QueryFailed              // listing all users failed

  datatype Result<T> = Ok(value: T) | Err(error: Error)

  /** The outcome of one service call: its result and the store after it. */
  datatype Transition<T> = Transition(result: Result<T>, store: Store)

  /** Leaving before the commit: the deferred rollback discards every write. */
  function Rollback<T>(s: Store, e: Error): (t: Transition<T>)
    ensures t.result == Err(e) && t.store == s
  {
    Transition(Err(e), s)
  }

  /** Committing the writes that turned s into s'; a failed commit rolls back. */
  function Commit<T>(s: Store, s': Store, v: T, commitOk: bool): (t: Transition<T>)
    ensures t.result.Ok? <==> commitOk
    ensures t.result.Ok? ==> t.store == s' && t.result.value == v
    ensures t.result.Err? ==> t.store == s
  {
    if commitOk then Transition(Ok(v), s') else Transition(Err(CommitFailed), s)
  }

  /** Everything a call observes of the world outside the store. */
  datatype Env = Env(
    now: int,                                   // current time, in whole minutes
    expiredOtp: string,                         // the EXPIRED_OTP environment variable
    newUuid: Option<Uuid>,                      // uuid.NewUUID for a new user
    teamId: Uuid,                               // uuid.New for a new team row
    otpId: Uuid,                                // uuid.New for a new OTP row
    draw: Mail.CodeDraw,                        // the random draw inside GenerateCode
    hash: string -> Option<string>,             // bcrypt GenerateFromPassword
    matches: (string, string) -> bool,          // bcrypt CompareAndHashPassword(hash, pw) succeeds
    issueToken: (Uuid, bool) -> Option<string>, // CreateJWTToken(userID, isAdmin)
    smtpUsername: string,                       // SMTP_USERNAME, the sender
    smtp: (string, string, string) -> bool,     // smtp.SendMail(from, to, message) succeeds
    commitOk: bool)                             // tx.Commit succeeds

  /** An OTP row is expired when its last update lies strictly before
      now - minutes; a row updated exactly at that threshold is still valid. */
  predicate Expired(otp: Otp, now: int, minutes: int) {
    otp.updatedAt < now - minutes
  }

  function SendMail(env: Env, to: string, subject: string, body: string): bool {
    Mail.SendEmail(env.smtp, env.smtpUsername, to, subject, body)
  }

  const VerificationSubject: string := "OTP Verification"
  const ResetSubject: string := "Reset Password Token"

  function VerificationBody(code: string): string {
    "Your OTP verification code is " + code + "."
  }

  function ResetBody(code: string): string {
    "Your Reset Password Code is " + code + "."
  }

  /** The user row Register creates: inactive participant, empty profile. */
  function NewUser(email: string, hash: string): User {
    User(email, hash, StatusInactive, RoleParticipant, "", "", "", "", "")
  }

  /** The team row Register creates for a new user. */
  function PlaceholderTeam(userId: Uuid): Team {
    Team("", TeamUnverified, userId, DefaultCompetition)
  }

  /** m' is m with one new key k bound to v, and nothing else changed. */
  predicate AddsOne<K, V(==)>(m: map<K, V>, m': map<K, V>, k: K, v: V) {
    && k !in m
    && m'.Keys == m.Keys + {k}
    && m'[k] == v
    && forall j :: j in m ==> j in m' && m'[j] == m[j]
  }

  /** s' differs from s only in user id's row, which becomes u. */
  predicate ChangesOnlyUser(s: Store, s': Store, id: Uuid, u: User) {
    && id in s.users
    && s'.users.Keys == s.users.Keys
    && s'.users[id] == u
    && (forall j :: j in s.users && j != id ==> s'.users[j] == s.users[j])
    && s'.teams == s.teams
    && s'.otps == s.otps
  }

  // ---------------------------------------------------------------- Register

  /** The rows a committed registration writes for user id: the inactive
      participant with password hash, a placeholder team and the OTP row
      carrying the generated code, and nothing else. */
  predicate AccountCreated(s: Store, s': Store, env: Env, email: string, hash: string, id: Uuid) {
    var code := Mail.GenerateCode(env.draw);
    && AddsOne(s.users, s'.users, id, NewUser(email, hash))
    && AddsOne(s.teams, s'.teams, env.teamId, PlaceholderTeam(id))
    && AddsOne(s.otps, s'.otps, env.otpId, Otp(id, code, env.now))
  }

  /** The effect of a committed registration: exactly one new inactive
      participant, one placeholder team and one OTP row for that user, and the
      OTP mailed to the new address. */
  predicate Registered(s: Store, s': Store, env: Env, email: string, password: string) {
    && env.newUuid.Some?
    && env.hash(password).Some?
    && AccountCreated(s, s', env, email, env.hash(password).value, env.newUuid.value)
    && SendMail(env, email, VerificationSubject, VerificationBody(Mail.GenerateCode(env.draw)))
  }

  /** The writes of Register, once the email is free, the passwords agree and
      bcrypt and uuid have produced hash and id: the user row, then the
      token, then the team row, the OTP row and the mail, then the commit. */
  function CreateAccount(s: Store, env: Env, email: string, hash: string, id: Uuid): (t: Transition<string>)
    ensures t.result.Err? ==> t.store == s
    ensures id in s.users ==> t.result == Err(DuplicateKey)
    ensures t.result == Err(FailedToCreateToken) <==>
            id !in s.users && env.issueToken(id, false).None?
    ensures t.result.Ok? <==>
      && id !in s.users
      && env.issueToken(id, false).Some?
      && env.teamId !in s.teams
      && env.otpId !in s.otps
      && SendMail(env, email, VerificationSubject, VerificationBody(Mail.GenerateCode(env.draw)))
      && env.commitOk
    ensures t.result.Ok? ==>
      && env.issueToken(id, false) == Some(t.result.value)
      && AccountCreated(s, t.store, env, email, hash, id)
  {
    if id in s.users then Rollback(s, DuplicateKey)
    else
      var s1 := s.(users := s.users[id := NewUser(email, hash)]);
      match env.issueToken(id, false)
      case None => Rollback(s, FailedToCreateToken)
      case Some(token) =>
        if env.teamId in s1.teams then Rollback(s, DuplicateKey)
        else
          var s2 := s1.(teams := s1.teams[env.teamId := PlaceholderTeam(id)]);
          var code := Mail.GenerateCode(env.draw);
          if env.otpId in s2.otps then Rollback(s, DuplicateKey)
          else
            var s3 := s2.(otps := s2.otps[env.otpId := Otp(id, code, env.now)]);
            if !SendMail(env, email, VerificationSubject, VerificationBody(code)) then Rollback(s, MailFailed)
            else Commit(s, s3, token, env.commitOk)
  }

  function Register(s: Store, env: Env, email: string, password: string, confirm: string): (t: Transition<string>)
    ensures t.result.Err? ==> t.store == s
    ensures t.result == Err(EmailAlreadyRegistered) <==>
            EmailFindsUser(s, email)
    ensures t.result == Err(PasswordDoesntMatch) <==>
            !EmailFindsUser(s, email) && password != confirm
    ensures t.result == Err(FailedToCreateToken) <==>
            !EmailFindsUser(s, email) && password == confirm && env.hash(password).Some?
            && env.newUuid.Some? && env.newUuid.value !in s.users
            && env.issueToken(env.newUuid.value, false).None?
    ensures t.result.Ok? ==> password == confirm && !EmailTaken(s, email)
    ensures t.result.Ok? ==> Registered(s, t.store, env, email, password)
    ensures t.result.Ok? ==> env.issueToken(env.newUuid.value, false) == Some(t.result.value)
    ensures t.result.Ok? <==>
      && !EmailFindsUser(s, email)
      && password == confirm
      && env.hash(password).Some?
      && env.newUuid.Some? && env.newUuid.value !in s.users
      && env.issueToken(env.newUuid.value, false).Some?
      && env.teamId !in s.teams
      && env.otpId !in s.otps
      && SendMail(env, email, VerificationSubject, VerificationBody(Mail.GenerateCode(env.draw)))
      && env.commitOk
  {
    if EmailFindsUser(s, email) then Rollback(s, EmailAlreadyRegistered)
    else if password != confirm then Rollback(s, PasswordDoesntMatch)
    else match env.hash(password)
      case None => Rollback(s, HashFailed)
      case Some(hash) =>
        match env.newUuid
        case None => Rollback(s, UuidFailed)
        case Some(id) => CreateAccount(s, env, email, hash, id)
  }

  // ------------------------------------------------------------------- Login

  /** Login reads only: the transaction it opens never writes, and a failed
      commit still returns the token. */
  ghost function Login(s: Store, env: Env, email: string, password: string): (t: Transition<string>)
    ensures t.store == s
    ensures t.result.Err? ==> t.result.error == EmailOrPasswordWrong || t.result.error == FailedToCreateToken
    ensures !EmailFindsUser(s, email) ==> t.result == Err(EmailOrPasswordWrong)
    ensures t.result.Ok? ==>
      exists id :: id in s.users && (email != "" ==> s.users[id].email == email)
                   && env.matches(s.users[id].password, password)
                   && env.issueToken(id, s.users[id].roleId == RoleAdmin) == Some(t.result.value)
    ensures t.result.Ok? <==>
      && EmailFindsUser(s, email)
      && var id := GetUserByEmail(s, email).value;
         && env.matches(s.users[id].password, password)
         && env.issueToken(id, s.users[id].roleId == RoleAdmin).Some?
  {
    match GetUserByEmail(s, email)
    case None => Rollback(s, EmailOrPasswordWrong)
    case Some(id) =>
      var user := s.users[id];
      var isAdmin := user.roleId == RoleAdmin;
      if !env.matches(user.password, password) then Rollback(s, EmailOrPasswordWrong)
      else match env.issueToken(id, isAdmin)
        case None => Rollback(s, FailedToCreateToken)
        case Some(token) => Transition(Ok(token), s)
  }

  // -------------------------------------------------------------- VerifyUser

  /** The OTP row oid answers a presented code: it carries the code, the
      expiry setting parses, and the row is not expired. */
  predicate OtpAccepted(s: Store, env: Env, oid: Uuid, code: string) {
    && oid in s.otps
    && s.otps[oid].code == code
    && Strconv.Atoi(env.expiredOtp).Some?
    && !Expired(s.otps[oid], env.now, Strconv.Atoi(env.expiredOtp).value)
  }

  /** Activation: user id becomes active, OTP row oid is gone, nothing else changes. */
  predicate Activated(s: Store, s': Store, id: Uuid, oid: Uuid) {
    && id in s.users
    && s'.users.Keys == s.users.Keys
    && s'.users[id] == s.users[id].(statusAccount := StatusActive)
    && (forall j :: j in s.users && j != id ==> s'.users[j] == s.users[j])
    && s'.teams == s.teams
    && oid in s.otps
    && s'.otps == s.otps - {oid}
  }

  ghost function VerifyUser(s: Store, env: Env, userId: Uuid, code: string): (t: Transition<()>)
    ensures t.result.Err? ==> t.store == s
    ensures !HasOtp(s, userId) ==> t.result == Err(RecordNotFound)
    ensures t.result == Err(InvalidOtpCode) <==>
            HasOtp(s, userId) && s.otps[GetOtp(s, userId).value].code != code
    ensures t.result == Err(OtpExpired) <==>
            HasOtp(s, userId) && s.otps[GetOtp(s, userId).value].code == code
            && Strconv.Atoi(env.expiredOtp).Some?
            && Expired(s.otps[GetOtp(s, userId).value], env.now, Strconv.Atoi(env.expiredOtp).value)
    ensures t.result.Ok? ==>
      && HasOtp(s, userId)
      && OtpAccepted(s, env, GetOtp(s, userId).value, code)
      && Activated(s, t.store, userId, GetOtp(s, userId).value)
    ensures t.result.Ok? <==>
      && HasOtp(s, userId)
      && OtpAccepted(s, env, GetOtp(s, userId).value, code)
      && userId in s.users
      && env.commitOk
  {
    match GetOtp(s, userId)
    case None => Rollback(s, RecordNotFound)
    case Some(oid) =>
      var otp := s.otps[oid];
      if otp.code != code then Rollback(s, InvalidOtpCode)
      else match Strconv.Atoi(env.expiredOtp)
        case None => Rollback(s, ExpiryNotANumber)
        case Some(minutes) =>
          if Expired(otp, env.now, minutes) then Rollback(s, OtpExpired)
          else if userId !in s.users then Rollback(s, RecordNotFound)
          else
            var s1 := s.(users := s.users[userId := s.users[userId].(statusAccount := StatusActive)]);
            var s2 := s1.(otps := s1.otps - {oid});
            Commit(s, s2, (), env.commitOk)
  }

  // ---------------------------------------------------------- ChangePassword

  /** The effect of a committed reset issuance: one new OTP row for user id,
      mailed to that user. */
  predicate ResetIssued(s: Store, s': Store, env: Env, id: Uuid) {
    var code := Mail.GenerateCode(env.draw);
    && id in s.users
    && s'.users == s.users
    && s'.teams == s.teams
    && AddsOne(s.otps, s'.otps, env.otpId, Otp(id, code, env.now))
    && SendMail(env, s.users[id].email, ResetSubject, ResetBody(code))
  }

  ghost function ChangePassword(s: Store, env: Env, email: string): (t: Transition<string>)
    ensures t.result.Err? ==> t.store == s
    ensures !EmailFindsUser(s, email) ==> t.result == Err(RecordNotFound)
    ensures t.store != s ==>
      && t.result.Ok?
      && ResetIssued(s, t.store, env, GetUserByEmail(s, email).value)
      && env.issueToken(GetUserByEmail(s, email).value, false) == Some(t.result.value)
    ensures EmailFindsUser(s, email) && env.otpId !in s.otps
            && SendMail(env, s.users[GetUserByEmail(s, email).value].email,
                        ResetSubject, ResetBody(Mail.GenerateCode(env.draw)))
            && env.issueToken(GetUserByEmail(s, email).value, false).None?
            ==> t == Transition(Ok(""), s)
    ensures t.store != s <==>
      && EmailFindsUser(s, email)
      && env.otpId !in s.otps
      && var id := GetUserByEmail(s, email).value;
         && SendMail(env, s.users[id].email, ResetSubject, ResetBody(Mail.GenerateCode(env.draw)))
         && env.issueToken(id, false).Some?
         && env.commitOk
    ensures t.result.Ok? <==>
      && EmailFindsUser(s, email)
      && env.otpId !in s.otps
      && var id := GetUserByEmail(s, email).value;
         && SendMail(env, s.users[id].email, ResetSubject, ResetBody(Mail.GenerateCode(env.draw)))
         && (env.issueToken(id, false).None? || env.commitOk)
  {
    match GetUserByEmail(s, email)
    case None => Rollback(s, RecordNotFound)
    case Some(id) =>
      var user := s.users[id];
      var code := Mail.GenerateCode(env.draw);
      if env.otpId in s.otps then Rollback(s, DuplicateKey)
      else
        var s1 := s.(otps := s.otps[env.otpId := Otp(id, code, env.now)]);
        if !SendMail(env, user.email, ResetSubject, ResetBody(code)) then Rollback(s, MailFailed)
        else match env.issueToken(id, false)
          // ChangePassword returns ("", nil) here, before the commit: the OTP
          // row is rolled back although the call reports success.
          case None => Transition(Ok(""), s)
          case Some(token) => Commit(s, s1, token, env.commitOk)
  }

  // ------------------------------------------------- VerifyOtpChangePassword

  /** Lookup, then code check, then expiry. The lookup filters on the code
      unless the code is empty; only then can the row found carry another code,
      which is when "invalid token" is returned. */
  ghost function VerifyOtpChangePassword(s: Store, env: Env, userId: Uuid, code: string): (t: Transition<()>)
    ensures t.result.Err? ==> t.store == s
    ensures t.store.users == s.users && t.store.teams == s.teams
    ensures !HasOtp(s, userId) ==> t.result == Err(RecordNotFound)
    ensures code != "" && !HasOtpWithCode(s, userId, code) ==> t.result == Err(RecordNotFound)
    ensures t.result == Err(InvalidToken) ==> code == "" && HasOtp(s, userId)
    ensures code == "" && HasOtp(s, userId) && s.otps[GetOtp(s, userId).value].code != ""
            ==> t.result == Err(InvalidToken)
    ensures t.result == Err(TokenExpired) <==>
            && GetOtpWithCode(s, userId, code).Some?
            && s.otps[GetOtpWithCode(s, userId, code).value].code == code
            && Strconv.Atoi(env.expiredOtp).Some?
            && Expired(s.otps[GetOtpWithCode(s, userId, code).value], env.now, Strconv.Atoi(env.expiredOtp).value)
    ensures t.result.Ok? <==>
      && GetOtpWithCode(s, userId, code).Some?
      && OtpAccepted(s, env, GetOtpWithCode(s, userId, code).value, code)
      && env.commitOk
    ensures t.result.Ok? ==> t.store.otps == s.otps - {GetOtpWithCode(s, userId, code).value}
  {
    match GetOtpWithCode(s, userId, code)
    case None => Rollback(s, RecordNotFound)
    case Some(oid) =>
      var otp := s.otps[oid];
      if otp.code != code then Rollback(s, InvalidToken)
      else match Strconv.Atoi(env.expiredOtp)
        case None => Rollback(s, ExpiryNotANumber)
        case Some(minutes) =>
          if Expired(otp, env.now, minutes) then Rollback(s, TokenExpired)
          else Commit(s, s.(otps := s.otps - {oid}), (), env.commitOk)
  }

  // ----------------------------------------------- ChangePasswordAfterVerify

  function ChangePasswordAfterVerify(s: Store, env: Env, userId: Uuid, newPassword: string, confirm: string)
    : (t: Transition<()>)
    ensures t.result.Err? ==> t.store == s
    ensures userId !in s.users ==> t.result == Err(RecordNotFound)
    ensures t.result == Err(PasswordMismatch) <==>
            userId in s.users && newPassword != confirm
    ensures t.result == Err(SamePassword) <==>
            userId in s.users && newPassword == confirm && env.hash(newPassword).Some?
            && env.matches(s.users[userId].password, newPassword)
    ensures t.result.Ok? ==>
      && userId in s.users
      && newPassword == confirm
      && !env.matches(s.users[userId].password, newPassword)
      && env.hash(newPassword).Some?
      && ChangesOnlyUser(s, t.store, userId, s.users[userId].(password := env.hash(newPassword).value))
    ensures t.result.Ok? <==>
      && userId in s.users
      && newPassword == confirm
      && env.hash(newPassword).Some?
      && !env.matches(s.users[userId].password, newPassword)
      && env.commitOk
  {
    if userId !in s.users then Rollback(s, RecordNotFound)
    else
      var user := s.users[userId];
      if newPassword != confirm then Rollback(s, PasswordMismatch)
      else match env.hash(newPassword)
        case None => Rollback(s, HashFailed)
        case Some(hash) =>
          if env.matches(user.password, newPassword) then Rollback(s, SamePassword)
          else Commit(s, s.(users := s.users[userId := user.(password := hash)]), (), env.commitOk)
  }

  // --------------------------------------- UpdateProfile and enrollment

  datatype Profile = Profile(fullName: string, studentNumber: string, university: string, major: string)

  function ProfileOf(u: User): Profile {
    Profile(u.fullName, u.studentNumber, u.university, u.major)
  }

  function WithProfile(u: User, p: Profile): User {
    u.(fullName := p.fullName, studentNumber := p.studentNumber, university := p.university, major := p.major)
  }

  /** u' is u with its profile replaced by p; credentials, status, role and
      payment proof are kept. */
  predicate ProfileReplaced(u: User, u': User, p: Profile) {
    && ProfileOf(u') == p
    && u'.email == u.email
    && u'.password == u.password
    && u'.statusAccount == u.statusAccount
    && u'.roleId == u.roleId
    && u'.paymentTransc == u.paymentTransc
  }

  function UpdateProfile(s: Store, env: Env, userId: Uuid, p: Profile): (t: Transition<Profile>)
    ensures t.result.Err? ==> t.store == s
    ensures userId !in s.users ==> t.result == Err(RecordNotFound)
    ensures userId in s.users ==> (t.result.Ok? <==> env.commitOk)
    ensures t.result.Ok? ==>
      && t.result.value == p
      && userId in s.users
      && t.store.users.Keys == s.users.Keys
      && ChangesOnlyUser(s, t.store, userId, t.store.users[userId])
      && ProfileReplaced(s.users[userId], t.store.users[userId], p)
  {
    if userId !in s.users then Rollback(s, RecordNotFound)
    else
      var user := WithProfile(s.users[userId], p);
      Commit(s, s.(users := s.users[userId := user]), ProfileOf(user), env.commitOk)
  }

  ghost function CompetitionRegistration(s: Store, env: Env, userId: Uuid, competitionId: int, p: Profile)
    : (t: Transition<()>)
    ensures t.result.Err? ==> t.store == s
    ensures userId !in s.users ==> t.result == Err(RecordNotFound)
    ensures userId in s.users && !HasTeam(s, userId) ==> t.result == Err(RecordNotFound)
    ensures t.result.Ok? ==>
      && userId in s.users
      && HasTeam(s, userId)
      && var tid := GetTeamByUserID(s, userId).value;
         && t.store.users.Keys == s.users.Keys
         && ProfileReplaced(s.users[userId], t.store.users[userId], p)
         && (forall j :: j in s.users && j != userId ==> t.store.users[j] == s.users[j])
         && t.store.teams == s.teams[tid := s.teams[tid].(competitionId := competitionId)]
         && t.store.otps == s.otps
    ensures t.result.Ok? <==> userId in s.users && HasTeam(s, userId) && env.commitOk
  {
    if userId !in s.users then Rollback(s, RecordNotFound)
    else
      var s1 := s.(users := s.users[userId := WithProfile(s.users[userId], p)]);
      match GetTeamByUserID(s, userId)
      case None => Rollback(s, RecordNotFound)
      case Some(tid) =>
        var s2 := s1.(teams := s1.teams[tid := s1.teams[tid].(competitionId := competitionId)]);
        Commit(s, s2, (), env.commitOk)
  }

  // ----------------------------------------------------- GetTotalParticipant

  const CompetitionUiux: int := 2
  const CompetitionBp: int := 3

  datatype Totals = Totals(totalUiux: nat, totalBp: nat)

  /** How many entries of ids equal c. */
  function CountOf(ids: seq<int>, c: int): nat {
    if |ids| == 0 then 0
    else CountOf(ids[..|ids| - 1], c) + (if ids[|ids| - 1] == c then 1 else 0)
  }

  /** GetTotalParticipant over what GetAllUser returned: for each listed user,
      the competition of the team preloaded with it (0 when it has none), or
      None when the listing failed. */
  method GetTotalParticipant(listing: Option<seq<int>>) returns (r: Result<Totals>)
    ensures r.Ok? <==> listing.Some?
    ensures r.Ok? ==> r.value.totalUiux == CountOf(listing.value, CompetitionUiux)
    ensures r.Ok? ==> r.value.totalBp == CountOf(listing.value, CompetitionBp)
  {
    if listing.None? {
      return Err(QueryFailed);
    }
    var ids := listing.value;
    var totalUiux, totalBp := 0, 0;
    var i := 0;
    while i < |ids|
      invariant i <= |ids|
      invariant totalUiux == CountOf(ids[..i], CompetitionUiux)
      invariant totalBp == CountOf(ids[..i], CompetitionBp)
    {
      assert ids[..i + 1][..i] == ids[..i];
      if ids[i] == CompetitionUiux {
        totalUiux := totalUiux + 1;
      } else if ids[i] == CompetitionBp {
        totalBp := totalBp + 1;
      }
      i := i + 1;
    }
    assert ids[..i] == ids;
    return Ok(Totals(totalUiux, totalBp));
  }
}

=== FILE: user_service_facts.dfy ===
/** Properties of the account workflow that relate several calls, or a call
    and the store invariant. */
module UserServiceFacts {
  import opened Common
  import opened Entity
  import opened UserService
  import Mail
  import Strconv

  /** bcrypt as the service relies on it: a hash it produces for pw matches pw. */
  predicate HashMatches(env: Env, pw: string) {
    env.hash(pw).Some? ==> env.matches(env.hash(pw).value, pw)
  }

  // ------------------------------------------------------ store invariant

  /** The rows a registration writes keep the invariant when the email was
      free: the new user's email is held by no one else. */
  lemma AccountCreatedPreservesWf(s: Store, s': Store, env: Env, email: string, hash: string, id: Uuid)
    requires Wf(s)
    requires !EmailFindsUser(s, email)
    requires AccountCreated(s, s', env, email, hash, id)
    ensures Wf(s')
  {
    assert s'.users[id].email == email;
    assert email == "" ==> s.users == map[];
    forall a, b | a in s'.users && b in s'.users && s'.users[a].email == s'.users[b].email
      ensures a == b
    {
    }
  }

  lemma RegisterPreservesWf(s: Store, env: Env, email: string, password: string, confirm: string)
    requires Wf(s)
    ensures Wf(Register(s, env, email, password, confirm).store)
  {
    var t := Register(s, env, email, password, confirm);
    if t.result.Ok? {
      AccountCreatedPreservesWf(s, t.store, env, email, env.hash(password).value, env.newUuid.value);
    }
  }

  lemma VerifyUserPreservesWf(s: Store, env: Env, userId: Uuid, code: string)
    requires Wf(s)
    ensures Wf(VerifyUser(s, env, userId, code).store)
  {
  }

  lemma ChangePasswordPreservesWf(s: Store, env: Env, email: string)
    requires Wf(s)
    ensures Wf(ChangePassword(s, env, email).store)
  {
  }

  lemma VerifyOtpChangePasswordPreservesWf(s: Store, env: Env, userId: Uuid, code: string)
    requires Wf(s)
    ensures Wf(VerifyOtpChangePassword(s, env, userId, code).store)
  {
  }

  lemma ChangePasswordAfterVerifyPreservesWf(s: Store, env: Env, userId: Uuid, newPassword: string, confirm: string)
    requires Wf(s)
    ensures Wf(ChangePasswordAfterVerify(s, env, userId, newPassword, confirm).store)
  {
  }

  lemma UpdateProfilePreservesWf(s: Store, env: Env, userId: Uuid, p: Profile)
    requires Wf(s)
    ensures Wf(UpdateProfile(s, env, userId, p).store)
  {
  }

  lemma CompetitionRegistrationPreservesWf(s: Store, env: Env, userId: Uuid, competitionId: int, p: Profile)
    requires Wf(s)
    ensures Wf(CompetitionRegistration(s, env, userId, competitionId, p).store)
  {
  }

  // ------------------------------------------------------------------ Login

  /** Login fails with the generic error exactly when no user with that
      email has a password matching the one presented: an unknown email and a
      wrong password are indistinguishable to the caller. The empty email
      finds whichever user the lookup returns, so for it the outcome depends
      on that user's password alone. */
  lemma LoginRejectsExactly(s: Store, env: Env, email: string, password: string)
    requires EmailsUnique(s)
    ensures email != "" ==>
            (Login(s, env, email, password).result == Err(EmailOrPasswordWrong)
             <==> !exists id :: id in s.users && s.users[id].email == email && env.matches(s.users[id].password, password))
    ensures email == "" ==>
            (Login(s, env, email, password).result == Err(EmailOrPasswordWrong)
             <==> s.users == map[] || !env.matches(s.users[GetUserByEmail(s, email).value].password, password))
  {
  }

  /** The two failure causes, side by side: same error, same store. */
  lemma LoginFailsAlike(s: Store, env: Env, unknown: string, email: string, password: string, wrong: string)
    requires !EmailFindsUser(s, unknown)
    requires EmailsUnique(s)
    requires email != ""
    requires exists id :: id in s.users && s.users[id].email == email && !env.matches(s.users[id].password, wrong)
    ensures Login(s, env, unknown, password) == Login(s, env, email, wrong)
  {
  }

  /** After a registration the email lookup finds the new user: either the
      email is non-empty and now held by that user alone, or it is empty and
      the store held no user before. */
  lemma RegisteredUserFound(s: Store, s': Store, env: Env, email: string, password: string)
    requires EmailsUnique(s)
    requires !EmailFindsUser(s, email)
    requires Registered(s, s', env, email, password)
    ensures GetUserByEmail(s', email) == Some(env.newUuid.value)
  {
    var id := env.newUuid.value;
    if email == "" {
      assert s'.users.Keys == {id};
    } else {
      assert EmailsUnique(s') by {
        forall a, b | a in s'.users && b in s'.users && s'.users[a].email == s'.users[b].email
          ensures a == b
        {
        }
      }
      GetUserByEmailUnique(s', email, id);
    }
  }

  /** A freshly registered, still inactive, account can log in with the
      password it registered with: Login does not look at the account status. */
  lemma LoginAfterRegister(s: Store, env: Env, env2: Env, email: string, password: string)
    requires EmailsUnique(s)
    requires Register(s, env, email, password, password).result.Ok?
    requires env2.matches == env.matches && HashMatches(env, password)
    requires env2.issueToken(env.newUuid.value, false).Some?
    ensures var s' := Register(s, env, email, password, password).store;
            && s'.users[env.newUuid.value].statusAccount == StatusInactive
            && Login(s', env2, email, password).result == Ok(env2.issueToken(env.newUuid.value, false).value)
  {
    var s' := Register(s, env, email, password, password).store;
    RegisteredUserFound(s, s', env, email, password);
  }

  // ------------------------------------------------------------- VerifyUser

  /** The expiry comparison is strict: an OTP updated exactly EXPIRED_OTP
      minutes ago is accepted, one updated a minute earlier is rejected. */
  lemma VerifyUserExpiryBoundary(s: Store, env: Env, userId: Uuid, code: string, minutes: int)
    requires HasOtp(s, userId) && s.otps[GetOtp(s, userId).value].code == code
    requires userId in s.users && env.commitOk
    requires Strconv.Atoi(env.expiredOtp) == Some(minutes)
    ensures s.otps[GetOtp(s, userId).value].updatedAt == env.now - minutes
            ==> VerifyUser(s, env, userId, code).result.Ok?
    ensures s.otps[GetOtp(s, userId).value].updatedAt == env.now - minutes - 1
            ==> VerifyUser(s, env, userId, code).result == Err(OtpExpired)
  {
  }

  /** A user with a single OTP row can be verified once: a second call finds
      no OTP row left. */
  lemma VerifyUserOnce(s: Store, env: Env, env2: Env, userId: Uuid, code: string, code2: string)
    requires VerifyUser(s, env, userId, code).result.Ok?
    requires forall oid :: oid in s.otps && s.otps[oid].userId == userId ==> oid == GetOtp(s, userId).value
    ensures VerifyUser(VerifyUser(s, env, userId, code).store, env2, userId, code2).result == Err(RecordNotFound)
  {
  }

  /** After a registration, the OTP mailed to the new user activates the
      account when presented within the expiry window, and only once. */
  lemma RegisterThenVerify(s: Store, env: Env, env2: Env, email: string, password: string, minutes: int)
    requires Wf(s)
    requires Register(s, env, email, password, password).result.Ok?
    requires Strconv.Atoi(env2.expiredOtp) == Some(minutes)
    requires env2.now - minutes <= env.now && env2.commitOk
    ensures var id := env.newUuid.value;
            var s1 := Register(s, env, email, password, password).store;
            var t2 := VerifyUser(s1, env2, id, Mail.GenerateCode(env.draw));
            && t2.result.Ok?
            && t2.store.users[id].statusAccount == StatusActive
            && VerifyUser(t2.store, env2, id, Mail.GenerateCode(env.draw)).result == Err(RecordNotFound)
  {
  }

  /** A worked run: registering a@x.com with matching passwords when the
      random draw gives the code "482913", then presenting that code within a
      ten-minute window, leaves the account active. */
  lemma ExampleRegistration(env: Env, env2: Env)
    requires env.draw == 382913 && env.newUuid.Some? && env.hash("Secret1").Some?
    requires env.issueToken(env.newUuid.value, false).Some?
    requires SendMail(env, "a@x.com", VerificationSubject, VerificationBody("482913"))
    requires env.commitOk
    requires env2.expiredOtp == "10" && env2.now <= env.now + 10 && env2.commitOk
    ensures var t := Register(EmptyStore, env, "a@x.com", "Secret1", "Secret1");
            && t.result.Ok?
            && t.store.otps[env.otpId].code == "482913"
            && VerifyUser(t.store, env2, env.newUuid.value, "482913").result.Ok?
            && VerifyUser(t.store, env2, env.newUuid.value, "482913").store.users[env.newUuid.value].statusAccount
               == StatusActive
  {
    Mail.GenerateCodeExample();
    assert Strconv.DigitsValue("10") == 10 by {
      assert "10"[..1] == "1";
      assert "1"[..0] == "";
    }
    assert Strconv.Atoi(env2.expiredOtp) == Some(10);
    assert Wf(EmptyStore);
    RegisterThenVerify(EmptyStore, env, env2, "a@x.com", "Secret1", 10);
  }

  /** The registration mail, read back, is the five header lines SendEmail
      writes followed by a body that carries the stored OTP code. */
  lemma RegisterMailCarriesCode(s: Store, env: Env, email: string, password: string, confirm: string)
    requires Register(s, env, email, password, confirm).result.Ok?
    requires '\r' !in env.smtpUsername && '\r' !in email
    ensures var s' := Register(s, env, email, password, confirm).store;
            exists msg :: env.smtp(env.smtpUsername, email, msg)
              && Mail.ParseMessage(msg) == Some((Mail.MessageHeaders(env.smtpUsername, email, VerificationSubject),
                                                 VerificationBody(s'.otps[env.otpId].code)))
  {
    var s' := Register(s, env, email, password, confirm).store;
    var code := s'.otps[env.otpId].code;
    var msg := Mail.ComposeMessage(env.smtpUsername, email, VerificationSubject, VerificationBody(code));
    assert '\r' !in VerificationSubject;
    Mail.ComposeParseRoundTrip(env.smtpUsername, email, VerificationSubject, VerificationBody(code));
    assert env.smtp(env.smtpUsername, email, msg);
  }

  // --------------------------------------------------------- password reset

  /** The reset OTP, presented within the window, is consumed and the user
      row stays as it was. The store does not keep codes unique per user, so
      this holds when no older row of that user carries the same code; with
      such a row the lookup may pick it instead. */
  lemma ResetOtpConsumed(s: Store, env: Env, env2: Env, email: string, minutes: int)
    requires Wf(s)
    requires ChangePassword(s, env, email).store != s
    requires !HasOtpWithCode(s, GetUserByEmail(s, email).value, Mail.GenerateCode(env.draw))
    requires Strconv.Atoi(env2.expiredOtp) == Some(minutes)
    requires env2.now - minutes <= env.now && env2.commitOk
    ensures var id := GetUserByEmail(s, email).value;
            var s1 := ChangePassword(s, env, email).store;
            var t2 := VerifyOtpChangePassword(s1, env2, id, Mail.GenerateCode(env.draw));
            && t2.result.Ok?
            && t2.store.users == s.users
            && t2.store.otps == s.otps
  {
  }

  /** When the token cannot be issued, ChangePassword reports success with an
      empty token after the reset mail went out, but its OTP row is rolled
      back: the code the user received is then refused. */
  lemma ResetCodeLostWithoutToken(s: Store, env: Env, env2: Env, email: string)
    requires EmailFindsUser(s, email)
    requires env.otpId !in s.otps
    requires var id := GetUserByEmail(s, email).value;
             && SendMail(env, s.users[id].email, ResetSubject, ResetBody(Mail.GenerateCode(env.draw)))
             && env.issueToken(id, false).None?
             && !HasOtpWithCode(s, id, Mail.GenerateCode(env.draw))
    ensures ChangePassword(s, env, email) == Transition(Ok(""), s)
    ensures VerifyOtpChangePassword(s, env2, GetUserByEmail(s, email).value, Mail.GenerateCode(env.draw)).result
            == Err(RecordNotFound)
  {
  }

  /** Presenting the empty code for a user with an OTP row is answered with
      "invalid token": the lookup ignores the empty code and returns one of
      the user's rows, whose code is never empty. */
  lemma EmptyResetCodeIsInvalidToken(s: Store, env: Env, userId: Uuid)
    requires Wf(s)
    ensures VerifyOtpChangePassword(s, env, userId, "").result
            == (if HasOtp(s, userId) then Err(InvalidToken) else Err(RecordNotFound))
  {
  }

  /** After a password change the new password logs in, provided bcrypt's
      hash of it matches it. */
  lemma LoginAfterPasswordChange(s: Store, env: Env, env2: Env, userId: Uuid, newPassword: string)
    requires EmailsUnique(s)
    requires ChangePasswordAfterVerify(s, env, userId, newPassword, newPassword).result.Ok?
    requires s.users[userId].email != "" || s.users.Keys == {userId}
    requires env2.matches == env.matches && HashMatches(env, newPassword)
    requires env2.issueToken(userId, s.users[userId].roleId == RoleAdmin).Some?
    ensures var s' := ChangePasswordAfterVerify(s, env, userId, newPassword, newPassword).store;
            Login(s', env2, s.users[userId].email, newPassword).result.Ok?
  {
  }

  // --------------------------------------------------- GetTotalParticipant

  /** The two totals never exceed the number of users listed. */
  lemma {:induction false} TotalsBounded(ids: seq<int>)
    ensures CountOf(ids, CompetitionUiux) + CountOf(ids, CompetitionBp) <= |ids|
  {
    if |ids| > 0 {
      TotalsBounded(ids[..|ids| - 1]);
    }
  }
}
